=== FILE: README.md ===
# Cash card service: the ownership-scoped CRUD protocol

This project models the request handlers of the cash card REST service and
proves their properties. Each handler serves one principal, the caller. The
reads and the existence check filter the shared record store by id and
caller together, or by caller alone for the listing. Each write is guarded
by such a check: an update saves over a record just found by id and caller,
and a delete removes by id alone once the check has found the record.
A cash card has an `id`, an `amount` and an `owner`. There are five
endpoints:

- fetch one card (`GET /cashcards/{id}`);
- create a card (`POST /cashcards`);
- list the caller's cards, paged and sorted (`GET /cashcards`);
- overwrite a card (`PUT /cashcards/{id}`);
- delete a card (`DELETE /cashcards/{id}`).

The record store is an immutable `map<int, CashCard>`. Its type, `Store`,
requires every record to carry the id it is stored under, which is the
primary key. Each handler is a pure function. Reads return a `Response`.
Writes return a `Step`, which holds the response and the store afterwards.
`Response` is one of:

- `Ok(card)`: 200 with a body;
- `Created(id)`: 201, with the id the Location header points to;
- `Page(content)`: 200 with a list;
- `NoContent`: 204;
- `NotFound`: 404.

Modules, leaves first:

- `Wrappers`: `Option`. It stands for a query result that may be null.
- `Cards`: the record, the store type, the owner restrictions `OwnedBy` and
  `OwnedByOthers`, sort orders, paging requests and responses.
- `Ordering`: the three-way comparisons a sorted listing uses. The requested
  orders are compared in turn, then the id ascending, so the order is total
  on records with distinct ids. It includes the comparator laws.
- `Listing`: turns a store into the complete sorted listing of its records.
  It takes the ids in ascending order, looks up their records, then
  insertion-sorts them. It also cuts pages from a listing. It proves that the
  listing is unique and that the pages cover it.
- `Repository`: the record store queries the controller calls. Their
  contracts state what the controller assumes of the store:
  - `findByIdAndOwner` and `existsByIdAndOwner` filter on id and owner
    together, and `findByOwner` filters on owner;
  - saving a record with no id inserts it under an unused id;
  - saving a record with a stored id replaces that record;
  - `deleteById` removes exactly one key.
- `Controller`: the five handlers, plus `Handle`, which dispatches a
  `Request`.
- `Properties`: properties that span calls:
  - isolation between owners;
  - non-interference: a foreign record looks like an absent one to every
    read, update and delete, and to a create handed the same fresh id;
    which id a create is handed can reveal it;
  - update is idempotent;
  - a second delete answers 404;
  - create-then-fetch;
  - the default order;
  - complete paging;
  - records survive any sequence of other principals' requests.

The fresh id a create receives is an input. `newId` is any id not in the
store, and `CreateCashCard` requires exactly that. This is the store's
promise that saving a record with no id inserts it under an unused id. How
the database picks that id is not modelled.

## Model

| member | source | states |
|---|---|---|
| Controller.FindCashCard | cashcard/src/main/java/com/example/cashcard/CashCardController.java:66-68 | yields a record exactly when the id is among the caller's own records, and then it is the caller's record under that id |
| Controller.FindById | cashcard/src/main/java/com/example/cashcard/CashCardController.java:33-39 | 200 with the stored record exactly when the store holds the id with owner = caller, otherwise 404; the returned record has that id and the caller as owner |
| Controller.CreateCashCard | cashcard/src/main/java/com/example/cashcard/CashCardController.java:43-53 | 201 pointing at the new id; exactly one key is added and it was not in the store before; the new record has the request's amount and the caller as owner whatever id or owner the body carried; every existing record is unchanged |
| Controller.FindAll | cashcard/src/main/java/com/example/cashcard/CashCardController.java:56-64 | a page of at most pageSize records, all stored and all owned by the caller, sorted by the requested orders or by amount ascending when none are given, and equal to that page of every complete sorted listing of the caller's records |
| Controller.PutCashCard | cashcard/src/main/java/com/example/cashcard/CashCardController.java:71-81 | 204 exactly when the caller owns the id, and then the record under it has the same id, the new amount and the caller as owner; 404 otherwise with the store unchanged; the key set never changes, so no upsert; no other record changes |
| Controller.DeleteCashCard | cashcard/src/main/java/com/example/cashcard/CashCardController.java:84-90 | 204 exactly when the caller owns the id, and then exactly that key is removed; 404 otherwise with the store unchanged; surviving records are unchanged |
| Controller.Handle | cashcard/src/main/java/com/example/cashcard/CashCardController.java:32-90 | the two reads leave the store unchanged; only a create adds keys; every 404 leaves the store unchanged; a record that survives a request keeps its id and owner |
| Repository.FindByIdAndOwner | cashcard/src/main/java/com/example/cashcard/CashCardController.java:67 | the store query filters on id and owner together: a record comes back exactly when the id is stored with that owner |
| Repository.ExistsByIdAndOwner | cashcard/src/main/java/com/example/cashcard/CashCardController.java:85 | the existence check agrees with the find-by-id-and-owner query on every input |
| Repository.FindByOwner | cashcard/src/main/java/com/example/cashcard/CashCardController.java:57-62 | the paged owner query returns at most pageSize of the owner's stored records, sorted, and it is the requested slice of the unique sorted listing of the owner's records |
| Repository.SaveNew | cashcard/src/main/java/com/example/cashcard/CashCardController.java:45-47 | saving a record without an id stores it under the unused id with its other fields kept, and leaves all other keys as they were |
| Repository.SaveExisting | cashcard/src/main/java/com/example/cashcard/CashCardController.java:75-77 | saving a record whose id is stored replaces that record, keeps the key set and changes nothing else |
| Repository.DeleteById | cashcard/src/main/java/com/example/cashcard/CashCardController.java:86 | deleting by id removes that key alone, whoever owns it, and keeps every other record |
| Listing.ListingOf | cashcard/src/main/java/com/example/cashcard/CashCardController.java:57-62 | the listing holds exactly the records of the store and is strictly sorted by the requested orders then id |
| Listing.ListingUnique | cashcard/src/main/java/com/example/cashcard/CashCardController.java:57-62 | any sequence that holds exactly the store's records in sorted order is that listing, so the order of a listing, ties included, is fully determined |
| Listing.PagesCoverListing | cashcard/src/main/java/com/example/cashcard/CashCardController.java:58-60 | the record at position i of a listing is on page i / size at position i % size |
| Ordering.PrecedesTotal | cashcard/src/main/java/com/example/cashcard/CashCardController.java:61 | under any requested orders, two records with different ids are ordered one way or the other, so sorting never leaves a tie |
| Ordering.DefaultSortIsAmountThenId | cashcard/src/main/java/com/example/cashcard/CashCardController.java:61 | the default order puts a before b exactly when a's amount is smaller, or the amounts are equal and a's id is smaller |
| Properties.OthersRecordsIsolated | cashcard/src/main/java/com/example/cashcard/CashCardController.java:66-90 | after any request by p, the records owned by others are exactly as before, with none added, changed or removed; a returned record or page holds only p's records |
| Properties.ResponsesDependOnlyOnOwnRecords | cashcard/src/main/java/com/example/cashcard/CashCardController.java:66-68 | two stores that agree on the caller's records give the caller the same response to every read, update and delete, and to a create handed the same fresh id in both, and still agree on those records afterwards |
| Properties.ForeignLooksAbsent | cashcard/src/main/java/com/example/cashcard/CashCardController.java:33-39 | when the id belongs to another owner, the caller's response to every read, update and delete, and to a create handed the same fresh id, is the same as if the record were absent |
| Properties.CreatedIdRevealsForeignRecord | cashcard/src/main/java/com/example/cashcard/CashCardController.java:47-50 | the id in a create's Location header can tell a foreign record from an absent one: with another owner's card under id 5 the caller can never get Created(5), while with that card gone the caller can |
| Ordering.PrecedesRespectsRequested | cashcard/src/main/java/com/example/cashcard/CashCardController.java:61 | the listing order puts a before b whenever the requested orders do, and puts a before b only if the requested orders do not put b first |
| Properties.UpdateIdempotent | cashcard/src/main/java/com/example/cashcard/CashCardController.java:75-77 | applying the same update twice gives the same response and store as applying it once |
| Properties.SecondDeleteNotFound | cashcard/src/main/java/com/example/cashcard/CashCardController.java:85-89 | a second delete of the same id by the same caller always answers 404 and leaves the store alone |
| Properties.CreatedCardVisibleToCreatorOnly | cashcard/src/main/java/com/example/cashcard/CashCardController.java:45-52 | after a create, the creator fetches the new id and gets the requested amount with the creator as owner; any other principal gets 404; the card is in the creator's complete listing |
| Properties.DefaultListingByAmount | cashcard/src/main/java/com/example/cashcard/CashCardController.java:61 | with no requested sort, every page is in ascending amount, and equal amounts are in ascending id |
| Properties.EveryOwnedCardListed | cashcard/src/main/java/com/example/cashcard/CashCardController.java:57-63 | each record the caller owns is on some page of the caller's listing, for any page size and sort |
| Properties.OwnRecordsSurviveOthersCalls | cashcard/src/main/java/com/example/cashcard/CashCardController.java:66-90 | after any sequence of requests by principals other than p, p's records are exactly as before |

## Left out

- Authentication and the role gate: only principals with the CARD-OWNER role
  reach the handlers (`SecurityConfig.java:25`). That is Spring Security
  configuration running in framework code. The model starts at the handler
  and takes the caller's name as given. The in-memory users and the BCrypt
  encoder are out of scope for the same reason.
- `CashcardApplication.java`: application bootstrap only.
- Id generation: the id a create receives is a parameter, so any unused id
  is allowed. How the database chooses ids is not modelled.
- Location header and response wrappers: the URI is not built.
  `Created(id)` carries the id that `cashcards/{id}` is expanded with. HTTP
  status objects become the `Response` constructors.
- JSON (de)serialisation of request and response bodies is not modelled. A
  request body is a `CashCard` value. Its id and owner are read by nothing,
  as in the source.
- The amount's numeric type: the Java `CashCard` record declaration is not
  part of this model, so the type of its amount is unknown and may be a
  floating-point or decimal number. `amount` is an
  unbounded `int` here, with no rounding and no null amounts.
- Ids are Java `Long`s. The model uses unbounded integers and does not model
  64-bit overflow of ids or of the page offset `pageNumber * pageSize`.
- How Spring resolves the paging parameters: clamping of page size and page
  number, and rejection of unknown sort properties, are framework
  behaviour. A `Pageable` here already has `pageNumber >= 0` and
  `pageSize >= 1`. Its sorts are over the record's three properties.
- String order for sorting by owner: the database's collation is replaced by
  character-by-character lexicographic order. Within one caller's listing
  every owner is the same, so this never changes a result.
- Ties in the requested order: the source asks the database for no
  tiebreak. The model breaks ties by ascending id, so a listing is one
  determined sequence. This order is a modelling choice, not a guarantee of
  the source. The source sorts by the requested key alone, and `amount`, the
  default key, is not unique. With paging by offset and limit, the database
  need not keep the same order of equal amounts from one page request to
  the next, so in the source a card can be skipped or repeated across
  pages. The four members below rest on the id tiebreak.
- Properties.EveryOwnedCardListed: the claim that every owned card is on
  some page holds for the model's single listing order. It rests on the id
  tiebreak. The source gives no such order for ties across separate page
  requests.
- Properties.DefaultListingByAmount: the claim that equal amounts come in
  ascending id rests on the id tiebreak. The source promises only
  ascending amount.
- Properties.ResponsesDependOnlyOnOwnRecords: the claim for a listing
  request rests on the id tiebreak. Without it, the database's order of
  equal keys could depend on rows owned by others.
- Properties.ForeignLooksAbsent: the claim for a listing request rests on
  the id tiebreak, for the same reason.
- Properties.ResponsesDependOnlyOnOwnRecords: for a create, the two stores
  are handed the same fresh id. In the source the id in the Location header
  comes from the database's id generation over the whole table, so a create
  shows which ids the store hands out, and that depends on records of other
  owners (see Properties.CreatedIdRevealsForeignRecord).
- Properties.ForeignLooksAbsent: for a create, both stores are handed the
  same fresh id, which must be free in the store that holds the foreign
  record. The id a create receives can therefore reveal that a foreign
  record exists (see Properties.CreatedIdRevealsForeignRecord).
- Concurrent requests against the shared store: each handler is modelled
  as one atomic step, relying on the database's row-level atomicity.

=== FILE: cards.dfy ===
/** The CashCard record, the record store it is kept in, paging requests and
    the responses the card endpoints produce. */
module Cards {
  import opened Wrappers

  /** A cash card. `id` is None until the store assigns one; `owner` is the
      name of the principal the record belongs to. */
  datatype CashCard = CashCard(id: Option<int>, amount: int, owner: string)

  /** Every stored record carries the id it is stored under (the primary key). */
  predicate KeyedById(m: map<int, CashCard>)
  {
    forall k :: k in m ==> m[k].id == Some(k)
  }

  /** The record store: records by id. */
  type Store = m: map<int, CashCard> | KeyedById(m) witness map[]

  /** The record `c` is in the store, unchanged, under its own id. */
  predicate Holds(s: Store, c: CashCard)
  {
    c.id.Some? && c.id.value in s && s[c.id.value] == c
  }

  /** The records of `s` owned by principal `p`. */
  function OwnedBy(s: Store, p: string): (r: Store)
    ensures forall k :: k in r <==> k in s && s[k].owner == p
    ensures forall k :: k in r ==> r[k] == s[k]
  {
    map k | k in s && s[k].owner == p :: s[k]
  }

  /** The records of `s` owned by anyone other than `p`. */
  function OwnedByOthers(s: Store, p: string): (r: Store)
    ensures forall k :: k in r <==> k in s && s[k].owner != p
    ensures forall k :: k in r ==> r[k] == s[k]
  {
    map k | k in s && s[k].owner != p :: s[k]
  }

  /** The record properties a listing can be sorted by. */
  datatype Property = Id | Amount | Owner

  datatype Direction = Asc | Desc

  /** One sort order: a property and a direction. */
  datatype Order = Order(property: Property, direction: Direction)

  /** Page sizes are positive. */
  type PageSize = n: int | 1 <= n witness 1

  /** The paging request of a listing; an empty `sort` means "unsorted". */
  datatype Pageable = Pageable(pageNumber: nat, pageSize: PageSize, sort: seq<Order>)

  /** The order a listing uses when the request names none: amount ascending. */
  const DefaultSort: seq<Order> := [Order(Amount, Asc)]

  /** The request's own orders, or the default when it has none. */
  function SortOr(pageable: Pageable, default: seq<Order>): seq<Order>
  {
    if |pageable.sort| == 0 then default else pageable.sort
  }

  /** The outcome of one request: 200 with a record, 201 with the new
      record's id (its location), 200 with a page, 204, or 404. */
  datatype Response =
    | Ok(card: CashCard)
    | Created(location: int)
    | Page(content: seq<CashCard>)
    | NoContent
    | NotFound
}

=== FILE: controller.dfy ===
/** The card endpoints: each handler takes the store and the caller's
    principal name and yields a response and the store afterwards. Reads
    and the existence check filter by id and caller together, or by caller
    alone for the listing; each write is guarded by such a check. */
module Controller {
  import opened Wrappers
  import opened Cards
  import opened Listing
  import opened Repository

  /** A response together with the store it leaves behind. */
  datatype Step = Step(response: Response, store: Store)

  /** The caller's record under `id`; None when the id is absent or the
      record belongs to someone else. */
  function FindCashCard(s: Store, id: int, caller: string): (r: Option<CashCard>)
    ensures r.Some? <==> id in OwnedBy(s, caller)
    ensures r.Some? ==> r.value == OwnedBy(s, caller)[id]
  {
    FindByIdAndOwner(s, id, caller)
  }

  /** GET /cashcards/{id}: the record when the caller owns it, 404 otherwise. */
  function FindById(s: Store, id: int, caller: string): (r: Response)
    ensures r.Ok? || r.NotFound?
    ensures r.Ok? <==> id in s && s[id].owner == caller
    ensures r.Ok? ==> r.card == s[id] && r.card.id == Some(id) && r.card.owner == caller
  {
    match FindCashCard(s, id, caller)
    case Some(card) => Ok(card)
    case None => NotFound
  }

  /** POST /cashcards: stores a new record holding the request's amount and
      owned by the caller, under the unused id `newId` the store assigns;
      the id and owner in the request are ignored. */
  function CreateCashCard(s: Store, request: CashCard, caller: string, newId: int): (r: Step)
    requires newId !in s
    ensures r.response == Created(newId)
    ensures r.store.Keys == s.Keys + {newId}
    ensures r.store[newId] == CashCard(Some(newId), request.amount, caller)
    ensures forall k :: k in s ==> r.store[k] == s[k]
  {
    var cardWithOwner := CashCard(None, request.amount, caller);
    var (saved, s') := SaveNew(s, cardWithOwner, newId);
    Step(Created(saved.id.value), s')
  }

  /** GET /cashcards: one page of the caller's records, sorted by the
      request's orders or by amount ascending when it names none. */
  function FindAll(s: Store, pageable: Pageable, caller: string): (r: Response)
    ensures r.Page?
    ensures |r.content| <= pageable.pageSize
    ensures forall c :: c in r.content ==> c.owner == caller && Holds(s, c)
    ensures SortedBy(r.content, SortOr(pageable, DefaultSort))
    ensures forall xs :: IsListing(OwnedBy(s, caller), SortOr(pageable, DefaultSort), xs) ==>
              r.content == PageOf(xs, pageable.pageNumber, pageable.pageSize)
  {
    var request := PageRequest(pageable.pageNumber, pageable.pageSize, SortOr(pageable, DefaultSort));
    Page(FindByOwner(s, caller, request))
  }

  /** PUT /cashcards/{id}: when the caller owns the record, overwrites it
      with the request's amount and the caller as owner (204); otherwise
      changes nothing (404). Never inserts. */
  function PutCashCard(s: Store, id: int, update: CashCard, caller: string): (r: Step)
    ensures r.response.NoContent? || r.response.NotFound?
    ensures r.response.NoContent? <==> id in s && s[id].owner == caller
    ensures r.store.Keys == s.Keys
    ensures r.response.NoContent? ==> r.store[id] == CashCard(Some(id), update.amount, caller)
    ensures r.response.NotFound? ==> r.store == s
    ensures forall k :: k in s && k != id ==> r.store[k] == s[k]
  {
    match FindCashCard(s, id, caller)
    case Some(cashCard) =>
      var updated := CashCard(cashCard.id, update.amount, caller);
      Step(NoContent, SaveExisting(s, updated))
    case None => Step(NotFound, s)
  }

  /** DELETE /cashcards/{id}: when the caller owns the record, removes it
      (204); otherwise changes nothing (404). */
  function DeleteCashCard(s: Store, id: int, caller: string): (r: Step)
    ensures r.response.NoContent? || r.response.NotFound?
    ensures r.response.NoContent? <==> id in s && s[id].owner == caller
    ensures r.response.NoContent? ==> r.store.Keys == s.Keys - {id}
    ensures r.response.NotFound? ==> r.store == s
    ensures forall k :: k in r.store ==> r.store[k] == s[k]
  {
    if ExistsByIdAndOwner(s, id, caller) then
      Step(NoContent, DeleteById(s, id))
    else
      Step(NotFound, s)
  }

  /** The five requests the card endpoints accept. */
  datatype Request =
    | GetCard(id: int)
    | PostCard(body: CashCard)
    | GetCards(pageable: Pageable)
    | PutCard(id: int, body: CashCard)
    | DeleteCard(id: int)

  /** Dispatches one request by `caller`; `newId` is the id the store would
      assign to a created record. Reads leave the store as it was. */
  function Handle(s: Store, caller: string, request: Request, newId: int): (r: Step)
    requires request.PostCard? ==> newId !in s
    ensures request.GetCard? || request.GetCards? ==> r.store == s
    ensures !request.PostCard? ==> r.store.Keys <= s.Keys
    ensures r.response.NotFound? ==> r.store == s
    ensures forall k :: k in s && k in r.store ==> r.store[k].id == s[k].id && r.store[k].owner == s[k].owner
  {
    match request
    case GetCard(id) => Step(FindById(s, id, caller), s)
    case PostCard(body) => CreateCashCard(s, body, caller, newId)
    case GetCards(pageable) => Step(FindAll(s, pageable, caller), s)
    case PutCard(id, body) => PutCashCard(s, id, body, caller)
    case DeleteCard(id) => DeleteCashCard(s, id, caller)
  }
}

=== FILE: listing.dfy ===
/** The owner-scoped listing a record store serves: the records of one store
    in ascending id order, sorted by the requested orders, then cut into
    pages. */
module Listing {
  import opened Wrappers
  import opened Cards
  import opened Ordering

  /** Every earlier record precedes every later one. */
  predicate SortedBy(xs: seq<CashCard>, orders: seq<Order>)
  {
    forall i, j :: 0 <= i < j < |xs| ==> Precedes(xs[i], xs[j], orders)
  }

  predicate DistinctIds(xs: seq<CashCard>)
  {
    forall i, j :: 0 <= i < j < |xs| ==> xs[i].id != xs[j].id
  }

  /** `xs` is a complete, sorted listing of the store `s`: it holds exactly
      the stored records, in the order `orders` demands. */
  ghost predicate IsListing(s: Store, orders: seq<Order>, xs: seq<CashCard>)
  {
    && SortedBy(xs, orders)
    && forall c :: c in xs <==> Holds(s, c)
  }

  // A helper, not a result: with contradictory-assumption warnings on,
  // Dafny does not derive `exists k :: k in ks` from `ks != {}` by itself.
  lemma NonEmptyHasMember(ks: set<int>)
    requires ks != {}
    ensures exists k :: k in ks
  {
    if forall k :: k !in ks {
      assert false;
    }
  }

  /** A non-empty finite set of ids has a least element. */
  lemma {:induction false} MinExists(ks: set<int>)
    requires ks != {}
    ensures exists m :: m in ks && forall k :: k in ks ==> m <= k
  {
    NonEmptyHasMember(ks);
    var x :| x in ks;
    if ks - {x} == {} {
      assert ks == {x};
    } else {
      MinExists(ks - {x});
      var m :| m in ks - {x} && forall k :: k in ks - {x} ==> m <= k;
      var least := if x < m then x else m;
      forall k | k in ks ensures least <= k {
        if k != x {
          assert k in ks - {x};
        }
      }
    }
  }

  function MinKey(ks: set<int>): (m: int)
    requires ks != {}
    ensures m in ks && forall k :: k in ks ==> m <= k
  {
    MinExists(ks);
    var m :| m in ks && forall k :: k in ks ==> m <= k;
    m
  }

  /** The ids of `ks` in strictly ascending order. */
  function KeysAscending(ks: set<int>): (r: seq<int>)
    ensures forall i, j :: 0 <= i < j < |r| ==> r[i] < r[j]
    ensures forall k :: k in r <==> k in ks
    decreases ks
  {
    if ks == {} then []
    else
      var m := MinKey(ks);
      [m] + KeysAscending(ks - {m})
  }

  /** The stored records under the given ids, in the same order. */
  function CardsAt(s: Store, ids: seq<int>): (r: seq<CashCard>)
    requires forall i :: 0 <= i < |ids| ==> ids[i] in s
    ensures |r| == |ids|
    ensures forall i :: 0 <= i < |ids| ==> r[i] == s[ids[i]]
  {
    seq(|ids|, i requires 0 <= i < |ids| => s[ids[i]])
  }

  /** A record preceding the head of a sorted sequence can be put in front of it. */
  lemma PrependBeforeHead(x: CashCard, xs: seq<CashCard>, orders: seq<Order>)
    requires SortedBy(xs, orders) && |xs| > 0 && Precedes(x, xs[0], orders)
    ensures SortedBy([x] + xs, orders)
  {
    forall j | 0 < j < |xs| ensures Precedes(x, xs[j], orders) {
      PrecedesTransitive(x, xs[0], xs[j], orders);
    }
  }

  /** The head of a sorted sequence can be put in front of any sorted
      arrangement of its tail plus one record it precedes. */
  lemma PrependHead(xs: seq<CashCard>, x: CashCard, rest: seq<CashCard>, orders: seq<Order>)
    requires SortedBy(xs, orders) && |xs| > 0 && Precedes(xs[0], x, orders)
    requires SortedBy(rest, orders)
    requires multiset(rest) == multiset(xs[1..]) + multiset{x}
    ensures SortedBy([xs[0]] + rest, orders)
  {
    forall j | 0 <= j < |rest| ensures Precedes(xs[0], rest[j], orders) {
      assert rest[j] in multiset(rest);
      if rest[j] != x {
        assert rest[j] in multiset(xs[1..]);
        var m :| 0 <= m < |xs[1..]| && xs[1..][m] == rest[j];
        assert xs[m + 1] == rest[j];
      }
    }
  }

  /** Inserts `x` at its place in a sorted sequence. */
  function Insert(x: CashCard, xs: seq<CashCard>, orders: seq<Order>): (r: seq<CashCard>)
    requires SortedBy(xs, orders)
    requires forall y :: y in xs ==> y.id != x.id
    ensures SortedBy(r, orders)
    ensures multiset(r) == multiset(xs) + multiset{x}
    decreases |xs|
  {
    if |xs| == 0 then [x]
    else if Precedes(x, xs[0], orders) then
      PrependBeforeHead(x, xs, orders);
      [x] + xs
    else
      PrecedesTotal(x, xs[0], orders);
      var rest := Insert(x, xs[1..], orders);
      PrependHead(xs, x, rest, orders);
      assert xs == [xs[0]] + xs[1..];
      [xs[0]] + rest
  }

  /** Insertion sort: a sorted permutation of records with distinct ids. */
  function Sort(xs: seq<CashCard>, orders: seq<Order>): (r: seq<CashCard>)
    requires DistinctIds(xs)
    ensures SortedBy(r, orders)
    ensures multiset(r) == multiset(xs)
  {
    if |xs| == 0 then []
    else
      assert DistinctIds(xs[1..]) by {
        forall i, j | 0 <= i < j < |xs[1..]| ensures xs[1..][i].id != xs[1..][j].id {
          assert xs[1..][i] == xs[i + 1] && xs[1..][j] == xs[j + 1];
        }
      }
      var rest := Sort(xs[1..], orders);
      assert forall y :: y in rest ==> y.id != xs[0].id by {
        forall y | y in rest ensures y.id != xs[0].id {
          assert y in multiset(xs[1..]);
          var m :| 0 <= m < |xs[1..]| && xs[1..][m] == y;
          assert xs[m + 1] == y;
        }
      }
      assert xs == [xs[0]] + xs[1..];
      Insert(xs[0], rest, orders)
  }

  /** The complete sorted listing of a store. */
  function ListingOf(s: Store, orders: seq<Order>): (r: seq<CashCard>)
    ensures IsListing(s, orders, r)
  {
    var ids := KeysAscending(s.Keys);
    var cards := CardsAt(s, ids);
    assert DistinctIds(cards) by {
      forall i, j | 0 <= i < j < |cards| ensures cards[i].id != cards[j].id {
        assert cards[i].id == Some(ids[i]) && cards[j].id == Some(ids[j]);
      }
    }
    var r := Sort(cards, orders);
    assert forall c :: c in r <==> Holds(s, c) by {
      forall c ensures c in r <==> Holds(s, c) {
        assert c in r <==> c in multiset(cards);
        if Holds(s, c) {
          var i :| 0 <= i < |ids| && ids[i] == c.id.value;
          assert cards[i] == c;
        }
        if c in cards {
          var i :| 0 <= i < |cards| && cards[i] == c;
          assert s[ids[i]].id == Some(ids[i]);
        }
      }
    }
    r
  }

  /** Two sorted sequences with the same members are the same sequence. */
  lemma {:induction false} SortedUnique(xs: seq<CashCard>, ys: seq<CashCard>, orders: seq<Order>)
    requires SortedBy(xs, orders) && SortedBy(ys, orders)
    requires forall c :: c in xs <==> c in ys
    ensures xs == ys
    decreases |xs|
  {
    assert |ys| > 0 ==> ys[0] in ys;
    if |xs| > 0 {
      assert xs[0] in ys && ys[0] in ys;
      var n :| 0 <= n < |ys| && ys[n] == xs[0];
      var m :| 0 <= m < |xs| && xs[m] == ys[0];
      if n != 0 {
        PrecedesIrreflexive(xs[0], orders);
        assert m != 0;
        PrecedesAsymmetric(xs[0], xs[m], orders);
        assert false;
      }
      forall c ensures c in xs[1..] <==> c in ys[1..] {
        if c in xs[1..] {
          var i :| 0 <= i < |xs[1..]| && xs[1..][i] == c;
          assert Precedes(xs[0], xs[i + 1], orders);
          PrecedesIrreflexive(c, orders);
          assert c in ys;
        }
        if c in ys[1..] {
          var i :| 0 <= i < |ys[1..]| && ys[1..][i] == c;
          assert Precedes(ys[0], ys[i + 1], orders);
          PrecedesIrreflexive(c, orders);
          assert c in xs;
        }
      }
      SortedUnique(xs[1..], ys[1..], orders);
      assert xs == [xs[0]] + xs[1..] && ys == [ys[0]] + ys[1..];
    }
  }

  /** A store has exactly one complete sorted listing. */
  lemma ListingUnique(s: Store, orders: seq<Order>, xs: seq<CashCard>)
    requires IsListing(s, orders, xs)
    ensures xs == ListingOf(s, orders)
  {
    SortedUnique(xs, ListingOf(s, orders), orders);
  }

  /** Page `pageNumber` of size `size`: the records from offset
      pageNumber * size on, at most `size` of them. */
  function PageOf(xs: seq<CashCard>, pageNumber: nat, size: nat): (r: seq<CashCard>)
    ensures |r| <= size
    ensures pageNumber * size >= |xs| ==> r == []
    ensures pageNumber * size + size <= |xs| ==> |r| == size
    ensures forall i :: 0 <= i < |r| ==> pageNumber * size + i < |xs| && r[i] == xs[pageNumber * size + i]
    ensures forall c :: c in r ==> c in xs
  {
    var lo := if pageNumber * size < |xs| then pageNumber * size else |xs|;
    var hi := if lo + size < |xs| then lo + size else |xs|;
    xs[lo..hi]
  }

  /** Every record of a listing appears on the page its position falls in:
      page i / size, at position i % size. */
  lemma PagesCoverListing(xs: seq<CashCard>, size: PageSize, i: nat) returns (n: nat, r: nat)
    requires i < |xs|
    ensures n == i / size && r == i % size
    ensures r < |PageOf(xs, n, size)| && PageOf(xs, n, size)[r] == xs[i]
  {
    n, r := i / size, i % size;
    assert n * size + r == i;
    assert n * size <= i < |xs|;
    var page := PageOf(xs, n, size);
    assert |page| == (if n * size + size < |xs| then size else |xs| - n * size);
  }

  lemma OnSomePage(xs: seq<CashCard>, size: PageSize, c: CashCard)
    requires c in xs
    ensures exists n: nat :: c in PageOf(xs, n, size)
  {
    var i :| 0 <= i < |xs| && xs[i] == c;
    var n, r := PagesCoverListing(xs, size, i);
    assert PageOf(xs, n, size)[r] == c;
  }

  /** A slice of a sorted sequence is sorted. */
  lemma PageSorted(xs: seq<CashCard>, pageNumber: nat, size: nat, orders: seq<Order>)
    requires SortedBy(xs, orders)
    ensures SortedBy(PageOf(xs, pageNumber, size), orders)
  {
    var r := PageOf(xs, pageNumber, size);
    forall i, j | 0 <= i < j < |r| ensures Precedes(r[i], r[j], orders) {
      assert r[i] == xs[pageNumber * size + i] && r[j] == xs[pageNumber * size + j];
    }
  }
}

=== FILE: ordering.dfy ===
/** How a listing orders records: the requested sort orders compared one after
    another, then the record id ascending, which makes the order total on
    records with distinct ids. Comparisons are three-way: negative, zero or
    positive. */
module Ordering {
  import opened Wrappers
  import opened Cards

  function IntCmp(x: int, y: int): int
  {
    if x < y then -1 else if x == y then 0 else 1
  }

  /** Lexicographic comparison of strings by character; a proper prefix comes first. */
  function StrCmp(a: string, b: string): int
  {
    if |a| == 0 then (if |b| == 0 then 0 else -1)
    else if |b| == 0 then 1
    else if a[0] != b[0] then IntCmp(a[0] as int, b[0] as int)
    else StrCmp(a[1..], b[1..])
  }

  /** Ids compare numerically; an unassigned id comes first. */
  function IdCmp(x: Option<int>, y: Option<int>): int
  {
    match (x, y)
    case (None, None) => 0
    case (None, Some(_)) => -1
    case (Some(_), None) => 1
    case (Some(i), Some(j)) => IntCmp(i, j)
  }

  function PropertyCmp(a: CashCard, b: CashCard, p: Property): int
  {
    match p
    case Id => IdCmp(a.id, b.id)
    case Amount => IntCmp(a.amount, b.amount)
    case Owner => StrCmp(a.owner, b.owner)
  }

  function OrderCmp(a: CashCard, b: CashCard, o: Order): int
  {
    if o.direction == Asc then PropertyCmp(a, b, o.property) else -PropertyCmp(a, b, o.property)
  }

  /** Compare by the first order; on a tie, by the remaining ones. */
  function LexCmp(a: CashCard, b: CashCard, orders: seq<Order>): int
  {
    if |orders| == 0 then 0
    else
      var c := OrderCmp(a, b, orders[0]);
      if c != 0 then c else LexCmp(a, b, orders[1..])
  }

  /** The orders a listing is sorted by: the requested ones, then id ascending. */
  function Tiebroken(orders: seq<Order>): seq<Order>
  {
    orders + [Order(Id, Asc)]
  }

  /** `a` is listed before `b` under `orders`. */
  predicate Precedes(a: CashCard, b: CashCard, orders: seq<Order>)
  {
    LexCmp(a, b, Tiebroken(orders)) < 0
  }

  // String comparison is a three-way comparator whose ties are equal strings.

  lemma {:induction false} StrCmpZero(a: string, b: string)
    ensures StrCmp(a, b) == 0 <==> a == b
  {
    if |a| > 0 && |b| > 0 && a[0] == b[0] {
      StrCmpZero(a[1..], b[1..]);
      assert a == [a[0]] + a[1..];
      assert b == [b[0]] + b[1..];
    }
  }

  lemma {:induction false} StrCmpAntisymmetric(a: string, b: string)
    ensures StrCmp(a, b) == -StrCmp(b, a)
  {
    if |a| > 0 && |b| > 0 && a[0] == b[0] {
      StrCmpAntisymmetric(a[1..], b[1..]);
    }
  }

  lemma {:induction false} StrCmpTransitive(a: string, b: string, c: string)
    requires StrCmp(a, b) < 0 && StrCmp(b, c) < 0
    ensures StrCmp(a, c) < 0
  {
    if |a| > 0 && |b| > 0 && |c| > 0 && a[0] == b[0] && b[0] == c[0] {
      StrCmpTransitive(a[1..], b[1..], c[1..]);
    }
  }

  /** The comparator laws for one property: reflexive ties, antisymmetry,
      transitivity, and ties that are interchangeable. */
  lemma PropertyCmpLaws(a: CashCard, b: CashCard, c: CashCard, p: Property)
    ensures PropertyCmp(a, a, p) == 0
    ensures PropertyCmp(a, b, p) == -PropertyCmp(b, a, p)
    ensures PropertyCmp(a, b, p) < 0 && PropertyCmp(b, c, p) < 0 ==> PropertyCmp(a, c, p) < 0
    ensures PropertyCmp(a, b, p) == 0 ==> PropertyCmp(a, c, p) == PropertyCmp(b, c, p)
  {
    if p == Owner {
      StrCmpZero(a.owner, a.owner);
      StrCmpZero(a.owner, b.owner);
      StrCmpAntisymmetric(a.owner, b.owner);
      if StrCmp(a.owner, b.owner) < 0 && StrCmp(b.owner, c.owner) < 0 {
        StrCmpTransitive(a.owner, b.owner, c.owner);
      }
    }
  }

  lemma OrderCmpLaws(a: CashCard, b: CashCard, c: CashCard, o: Order)
    ensures OrderCmp(a, a, o) == 0
    ensures OrderCmp(a, b, o) == -OrderCmp(b, a, o)
    ensures OrderCmp(a, b, o) < 0 && OrderCmp(b, c, o) < 0 ==> OrderCmp(a, c, o) < 0
    ensures OrderCmp(a, b, o) == 0 ==> OrderCmp(a, c, o) == OrderCmp(b, c, o)
  {
    PropertyCmpLaws(a, b, c, o.property);
    PropertyCmpLaws(c, b, a, o.property);
    PropertyCmpLaws(b, c, a, o.property);
    PropertyCmpLaws(a, c, b, o.property);
  }

  /** The comparator laws carry over to comparison by a sequence of orders. */
  lemma {:induction false} LexCmpLaws(a: CashCard, b: CashCard, c: CashCard, orders: seq<Order>)
    ensures LexCmp(a, a, orders) == 0
    ensures LexCmp(a, b, orders) == -LexCmp(b, a, orders)
    ensures LexCmp(a, b, orders) < 0 && LexCmp(b, c, orders) < 0 ==> LexCmp(a, c, orders) < 0
    ensures LexCmp(a, b, orders) == 0 ==> LexCmp(a, c, orders) == LexCmp(b, c, orders)
  {
    if |orders| > 0 {
      var o := orders[0];
      OrderCmpLaws(a, b, c, o);
      OrderCmpLaws(b, c, a, o);
      OrderCmpLaws(c, a, b, o);
      LexCmpLaws(a, b, c, orders[1..]);
    }
  }

  /** Records that tie on every order tie on the last one in particular. */
  lemma {:induction false} LexTieOnLast(a: CashCard, b: CashCard, orders: seq<Order>, last: Order)
    requires LexCmp(a, b, orders + [last]) == 0
    ensures OrderCmp(a, b, last) == 0
  {
    if |orders| > 0 {
      assert (orders + [last])[1..] == orders[1..] + [last];
      LexTieOnLast(a, b, orders[1..], last);
    }
  }

  lemma PrecedesIrreflexive(a: CashCard, orders: seq<Order>)
    ensures !Precedes(a, a, orders)
  {
    LexCmpLaws(a, a, a, Tiebroken(orders));
  }

  lemma PrecedesAsymmetric(a: CashCard, b: CashCard, orders: seq<Order>)
    requires Precedes(a, b, orders)
    ensures !Precedes(b, a, orders)
  {
    LexCmpLaws(a, b, b, Tiebroken(orders));
  }

  lemma PrecedesTransitive(a: CashCard, b: CashCard, c: CashCard, orders: seq<Order>)
    requires Precedes(a, b, orders) && Precedes(b, c, orders)
    ensures Precedes(a, c, orders)
  {
    LexCmpLaws(a, b, c, Tiebroken(orders));
  }

  /** Records with different ids are always ordered one way or the other. */
  lemma PrecedesTotal(a: CashCard, b: CashCard, orders: seq<Order>)
    requires a.id != b.id
    ensures Precedes(a, b, orders) || Precedes(b, a, orders)
  {
    LexCmpLaws(a, b, b, Tiebroken(orders));
    if LexCmp(a, b, Tiebroken(orders)) == 0 {
      LexTieOnLast(a, b, orders, Order(Id, Asc));
      assert false;
    }
  }

  /** Appending an order only decides what the earlier orders leave tied. */
  lemma {:induction false} LexCmpExtend(a: CashCard, b: CashCard, orders: seq<Order>, last: Order)
    ensures LexCmp(a, b, orders) != 0 ==> LexCmp(a, b, orders + [last]) == LexCmp(a, b, orders)
    ensures LexCmp(a, b, orders) == 0 ==> LexCmp(a, b, orders + [last]) == OrderCmp(a, b, last)
  {
    if |orders| == 0 {
      assert orders + [last] == [last];
      assert [last][1..] == [];
    } else {
      assert (orders + [last])[1..] == orders[1..] + [last];
      LexCmpExtend(a, b, orders[1..], last);
    }
  }

  /** The listing order never contradicts the requested orders: it puts `a`
      first whenever they do, and only breaks their ties. */
  lemma PrecedesRespectsRequested(a: CashCard, b: CashCard, orders: seq<Order>)
    ensures LexCmp(a, b, orders) < 0 ==> Precedes(a, b, orders)
    ensures Precedes(a, b, orders) ==> LexCmp(a, b, orders) <= 0
  {
    LexCmpExtend(a, b, orders, Order(Id, Asc));
  }

  /** The default order lists by amount ascending and breaks ties by id ascending. */
  lemma DefaultSortIsAmountThenId(a: CashCard, b: CashCard)
    ensures Precedes(a, b, DefaultSort) <==>
              a.amount < b.amount || (a.amount == b.amount && IdCmp(a.id, b.id) < 0)
  {
    var orders := Tiebroken(DefaultSort);
    assert orders[0] == Order(Amount, Asc) && orders[1..] == [Order(Id, Asc)];
    assert LexCmp(a, b, orders[1..]) == IdCmp(a.id, b.id) by {
      assert orders[1..][1..] == [];
    }
  }
}

=== FILE: properties.dfy ===
/** What the card endpoints promise across calls: a caller's requests never
    touch anyone else's records; a foreign record looks like an absent one
    to every read, update and delete, and to a create handed the same fresh
    id, though which id a create is handed can reveal it; update is
    idempotent, delete is not repeatable, and listings are complete and
    ordered. */
module Properties {
  import opened Wrappers
  import opened Cards
  import opened Ordering
  import opened Listing
  import opened Controller

  // Map identities about the owner restrictions.

  lemma OthersUnchanged(s: Store, s': Store, p: string)
    requires forall k :: k in s && s[k].owner != p ==> k in s' && s'[k] == s[k]
    requires forall k :: k in s' && s'[k].owner != p ==> k in s && s[k] == s'[k]
    ensures OwnedByOthers(s', p) == OwnedByOthers(s, p)
  {
    forall k ensures k in OwnedByOthers(s', p) <==> k in OwnedByOthers(s, p) {
      if k in s' && s'[k].owner != p {
        assert k in s && s[k] == s'[k];
      }
      if k in s && s[k].owner != p {
        assert k in s' && s'[k] == s[k];
      }
    }
    forall k | k in OwnedByOthers(s, p) ensures OwnedByOthers(s', p)[k] == OwnedByOthers(s, p)[k] {
      assert k in s' && s'[k] == s[k];
    }
  }

  lemma OwnedAfterStore(s: Store, k: int, c: CashCard, p: string)
    requires c.id == Some(k) && c.owner == p
    ensures KeyedById(s[k := c])
    ensures OwnedBy(s[k := c], p) == OwnedBy(s, p)[k := c]
  {
    var s': Store := s[k := c];
    assert OwnedBy(s', p).Keys == OwnedBy(s, p).Keys + {k};
  }

  lemma OwnedAfterRemove(s: Store, k: int, p: string)
    ensures OwnedBy(s - {k}, p) == OwnedBy(s, p) - {k}
  {
    assert OwnedBy(s - {k}, p).Keys == OwnedBy(s, p).Keys - {k};
  }

  lemma OwnedThroughOthers(s: Store, q: string, p: string)
    requires q != p
    ensures OwnedBy(s, p) == OwnedBy(OwnedByOthers(s, q), p)
  {
    assert OwnedBy(s, p).Keys == OwnedBy(OwnedByOthers(s, q), p).Keys;
  }

  /** A request by `caller` leaves every record of every other owner exactly
      as it was, adds none for them, and returns only the caller's records. */
  lemma OthersRecordsIsolated(s: Store, caller: string, request: Request, newId: int)
    requires request.PostCard? ==> newId !in s
    ensures OwnedByOthers(Handle(s, caller, request, newId).store, caller) == OwnedByOthers(s, caller)
    ensures Handle(s, caller, request, newId).response.Ok? ==>
              Handle(s, caller, request, newId).response.card.owner == caller
    ensures Handle(s, caller, request, newId).response.Page? ==>
              forall c :: c in Handle(s, caller, request, newId).response.content ==> c.owner == caller
  {
    var s' := Handle(s, caller, request, newId).store;
    match request
    case PostCard(body) =>
      OthersUnchanged(s, s', caller);
    case PutCard(id, body) =>
      OthersUnchanged(s, s', caller);
    case DeleteCard(id) =>
      OthersUnchanged(s, s', caller);
    case GetCard(id) =>
    case GetCards(pageable) =>
  }

  /** What a caller observes depends only on the caller's own records: two
      stores that agree on them give the same response to any request and
      still agree afterwards, provided a create is handed the same fresh id
      in both (which ids are free depends on other owners' records). */
  lemma {:induction false} ResponsesDependOnlyOnOwnRecords(s1: Store, s2: Store, caller: string, request: Request, newId: int)
    requires OwnedBy(s1, caller) == OwnedBy(s2, caller)
    requires request.PostCard? ==> newId !in s1 && newId !in s2
    ensures Handle(s1, caller, request, newId).response == Handle(s2, caller, request, newId).response
    ensures OwnedBy(Handle(s1, caller, request, newId).store, caller) ==
            OwnedBy(Handle(s2, caller, request, newId).store, caller)
  {
    var mine := OwnedBy(s1, caller);
    match request
    case GetCard(id) =>
      assert id in s1 && s1[id].owner == caller <==> id in mine;
      assert id in s2 && s2[id].owner == caller <==> id in mine;
    case PostCard(body) =>
      var card := CashCard(Some(newId), body.amount, caller);
      OwnedAfterStore(s1, newId, card, caller);
      OwnedAfterStore(s2, newId, card, caller);
    case GetCards(pageable) =>
      var orders := SortOr(pageable, DefaultSort);
      var all := ListingOf(mine, orders);
      assert FindAll(s1, pageable, caller).content == PageOf(all, pageable.pageNumber, pageable.pageSize);
      assert FindAll(s2, pageable, caller).content == PageOf(all, pageable.pageNumber, pageable.pageSize);
    case PutCard(id, body) =>
      assert id in s1 && s1[id].owner == caller <==> id in mine;
      assert id in s2 && s2[id].owner == caller <==> id in mine;
      if id in mine {
        var card := CashCard(Some(id), body.amount, caller);
        assert PutCashCard(s1, id, body, caller).store == s1[id := card];
        assert PutCashCard(s2, id, body, caller).store == s2[id := card];
        OwnedAfterStore(s1, id, card, caller);
        OwnedAfterStore(s2, id, card, caller);
      }
    case DeleteCard(id) =>
      assert id in s1 && s1[id].owner == caller <==> id in mine;
      assert id in s2 && s2[id].owner == caller <==> id in mine;
      if id in mine {
        assert DeleteCashCard(s1, id, caller).store == s1 - {id};
        assert DeleteCashCard(s2, id, caller).store == s2 - {id};
        OwnedAfterRemove(s1, id, caller);
        OwnedAfterRemove(s2, id, caller);
      }
  }

  /** A record owned by someone else is indistinguishable from no record at
      all: removing it changes no response to a read, update or delete, nor
      to a create handed the same fresh id. */
  lemma ForeignLooksAbsent(s: Store, id: int, caller: string, request: Request, newId: int)
    requires id in s && s[id].owner != caller
    requires request.PostCard? ==> newId !in s
    ensures Handle(s, caller, request, newId).response == Handle(s - {id}, caller, request, newId).response
  {
    assert OwnedBy(s, caller).Keys == OwnedBy(s - {id}, caller).Keys;
    ResponsesDependOnlyOnOwnRecords(s, s - {id}, caller, request, newId);
  }

  /** The id a create is handed shows which ids are free, and that depends
      on other owners' records: with kumar2's card under id 5, sarah1 can
      never be told Created(5), though sarah1 can be once that card is gone. */
  lemma CreatedIdRevealsForeignRecord(body: CashCard)
    ensures var s: Store := map[5 := CashCard(Some(5), 0, "kumar2")];
            && Handle(s - {5}, "sarah1", PostCard(body), 5).response == Created(5)
            && forall newId :: newId !in s ==> Handle(s, "sarah1", PostCard(body), newId).response != Created(5)
  {
  }

  /** Repeating an update changes nothing further, and answers the same. */
  lemma UpdateIdempotent(s: Store, id: int, update: CashCard, caller: string)
    ensures PutCashCard(PutCashCard(s, id, update, caller).store, id, update, caller) ==
            PutCashCard(s, id, update, caller)
  {
    var once := PutCashCard(s, id, update, caller);
    var twice := PutCashCard(once.store, id, update, caller);
    if once.response.NoContent? {
      assert twice.store == once.store[id := once.store[id]];
    }
  }

  /** Deleting the same id a second time always answers 404 and changes nothing. */
  lemma SecondDeleteNotFound(s: Store, id: int, caller: string)
    ensures DeleteCashCard(DeleteCashCard(s, id, caller).store, id, caller) ==
            Step(NotFound, DeleteCashCard(s, id, caller).store)
  {
  }

  /** A created record is found by its creator, with the requested amount and
      the creator as owner, is hidden from everyone else, and is part of the
      creator's complete listing. */
  lemma CreatedCardVisibleToCreatorOnly(s: Store, body: CashCard, caller: string, newId: int, other: string, orders: seq<Order>)
    requires newId !in s
    requires other != caller
    ensures FindById(CreateCashCard(s, body, caller, newId).store, newId, caller) ==
            Ok(CashCard(Some(newId), body.amount, caller))
    ensures FindById(CreateCashCard(s, body, caller, newId).store, newId, other) == NotFound
    ensures CashCard(Some(newId), body.amount, caller) in ListingOf(OwnedBy(CreateCashCard(s, body, caller, newId).store, caller), orders)
  {
    var s' := CreateCashCard(s, body, caller, newId).store;
    assert Holds(OwnedBy(s', caller), CashCard(Some(newId), body.amount, caller));
  }

  /** Amounts ascend along `xs`, and equal amounts come in ascending id. */
  predicate ByAmountThenId(xs: seq<CashCard>)
  {
    forall i, j :: 0 <= i < j < |xs| ==>
      xs[i].amount < xs[j].amount || (xs[i].amount == xs[j].amount && IdCmp(xs[i].id, xs[j].id) < 0)
  }

  /** With no requested order a page runs by amount ascending, ties by id ascending. */
  lemma DefaultListingByAmount(s: Store, pageable: Pageable, caller: string)
    requires |pageable.sort| == 0
    ensures ByAmountThenId(FindAll(s, pageable, caller).content)
  {
    var content := FindAll(s, pageable, caller).content;
    forall i, j | 0 <= i < j < |content|
      ensures content[i].amount < content[j].amount ||
              (content[i].amount == content[j].amount && IdCmp(content[i].id, content[j].id) < 0)
    {
      DefaultSortIsAmountThenId(content[i], content[j]);
    }
  }

  /** Every record the caller owns is on some page of the caller's listing. */
  lemma EveryOwnedCardListed(s: Store, caller: string, size: PageSize, sort: seq<Order>, c: CashCard)
    requires Holds(s, c) && c.owner == caller
    ensures exists n: nat :: c in FindAll(s, Pageable(n, size, sort), caller).content
  {
    var orders := SortOr(Pageable(0, size, sort), DefaultSort);
    var all := ListingOf(OwnedBy(s, caller), orders);
    assert Holds(OwnedBy(s, caller), c);
    OnSomePage(all, size, c);
    var n: nat :| c in PageOf(all, n, size);
    assert FindAll(s, Pageable(n, size, sort), caller).content == PageOf(all, n, size);
  }

  /** One request in a sequence of requests by various principals. */
  datatype Call = Call(caller: string, request: Request, newId: int)

  /** Every create in `trace` gets an id unused at that point. */
  predicate Admissible(s: Store, trace: seq<Call>)
    decreases |trace|
  {
    |trace| == 0 ||
    ((trace[0].request.PostCard? ==> trace[0].newId !in s) &&
     Admissible(Handle(s, trace[0].caller, trace[0].request, trace[0].newId).store, trace[1..]))
  }

  /** The store after serving `trace` in order. */
  function Run(s: Store, trace: seq<Call>): Store
    requires Admissible(s, trace)
    decreases |trace|
  {
    if |trace| == 0 then s
    else Run(Handle(s, trace[0].caller, trace[0].request, trace[0].newId).store, trace[1..])
  }

  /** However many requests other principals make, a principal's records stay
      exactly as they were. */
  lemma {:induction false} OwnRecordsSurviveOthersCalls(s: Store, trace: seq<Call>, p: string)
    requires Admissible(s, trace)
    requires forall i :: 0 <= i < |trace| ==> trace[i].caller != p
    ensures OwnedBy(Run(s, trace), p) == OwnedBy(s, p)
    decreases |trace|
  {
    if |trace| > 0 {
      var call := trace[0];
      var s1 := Handle(s, call.caller, call.request, call.newId).store;
      OthersRecordsIsolated(s, call.caller, call.request, call.newId);
      OwnedThroughOthers(s, call.caller, p);
      OwnedThroughOthers(s1, call.caller, p);
      OwnRecordsSurviveOthersCalls(s1, trace[1..], p);
    }
  }
}

=== FILE: repository.dfy ===
/** The record store's query and save operations the controller relies on,
    as functions over the id-to-record map. Each function states the store
    behaviour the controller assumes. */
module Repository {
  import opened Wrappers
  import opened Cards
  import opened Listing

  /** A page request as the store receives it: the orders are already resolved. */
  datatype PageRequest = PageRequest(pageNumber: nat, pageSize: PageSize, sort: seq<Order>)

  /** The record under `id`, provided it belongs to `owner`; None otherwise. */
  function FindByIdAndOwner(s: Store, id: int, owner: string): (r: Option<CashCard>)
    ensures r.Some? <==> id in s && s[id].owner == owner
    ensures r.Some? ==> Holds(s, r.value) && r.value.id == Some(id) && r.value.owner == owner
  {
    if id in s && s[id].owner == owner then Some(s[id]) else None
  }

  /** Whether a record under `id` belongs to `owner`: the same filter as FindByIdAndOwner. */
  function ExistsByIdAndOwner(s: Store, id: int, owner: string): (b: bool)
    ensures b <==> FindByIdAndOwner(s, id, owner).Some?
  {
    id in s && s[id].owner == owner
  }

  /** One page of `owner`'s records, in the requested order. */
  function FindByOwner(s: Store, owner: string, request: PageRequest): (page: seq<CashCard>)
    ensures |page| <= request.pageSize
    ensures forall c :: c in page ==> Holds(s, c) && c.owner == owner
    ensures SortedBy(page, request.sort)
    ensures forall xs :: IsListing(OwnedBy(s, owner), request.sort, xs) ==>
              page == PageOf(xs, request.pageNumber, request.pageSize)
  {
    var mine := OwnedBy(s, owner);
    var all := ListingOf(mine, request.sort);
    var page := PageOf(all, request.pageNumber, request.pageSize);
    PageSorted(all, request.pageNumber, request.pageSize, request.sort);
    forall xs | IsListing(mine, request.sort, xs) ensures xs == all {
      ListingUnique(mine, request.sort, xs);
    }
    forall c | c in page ensures Holds(s, c) && c.owner == owner {
      assert Holds(mine, c);
    }
    page
  }

  /** Saving a record with no id: the store assigns the unused id `newId`
      and keeps every other record. */
  function SaveNew(s: Store, card: CashCard, newId: int): (r: (CashCard, Store))
    requires card.id == None
    requires newId !in s
    ensures r.0 == CashCard(Some(newId), card.amount, card.owner)
    ensures r.1.Keys == s.Keys + {newId} && r.1[newId] == r.0
    ensures forall k :: k in s ==> r.1[k] == s[k]
  {
    var saved := CashCard(Some(newId), card.amount, card.owner);
    (saved, s[newId := saved])
  }

  /** Saving a record whose id is stored: it replaces that record and
      nothing else. */
  function SaveExisting(s: Store, card: CashCard): (r: Store)
    requires card.id.Some? && card.id.value in s
    ensures r.Keys == s.Keys
    ensures r[card.id.value] == card
    ensures forall k :: k in s && k != card.id.value ==> r[k] == s[k]
  {
    s[card.id.value := card]
  }

  /** Removes the record under `id`, whoever owns it, and nothing else. */
  function DeleteById(s: Store, id: int): (r: Store)
    ensures r.Keys == s.Keys - {id}
    ensures forall k :: k in r ==> r[k] == s[k]
  {
    s - {id}
  }
}

=== FILE: wrappers.dfy ===
/** The optional value the record store returns where the Java code returns null. */
module Wrappers {

  datatype Option<+T> = None | Some(value: T)
}
